=== FILE: README.md ===
# Portfolio page scripts: language switcher and theme/Safari notice

A Dafny model of the two browser scripts of the portfolio site.

- `language_changer.js` picks a start-up language. It comes from the stored
  `siteLanguage`, else the browser locale, else `en`. `changeLanguage(lang)` loads
  the translation dictionary for a code and keeps it in an in-memory cache. It
  writes the dictionary into every `data-i18n` element and the page title, and
  updates the `#currentLanguage` display. It then persists the code and sets the
  document `lang`. When loading fails it makes one fallback call with `en`.
- `script.js` initialises the `data-bs-theme` attribute and the dark-mode checkbox
  from the stored `theme`. It keeps both in step on every checkbox change. It
  prepends a compatibility notice once per load when the user agent looks like
  Safari and no truthy `safariWarningDismissed` flag is stored.

The DOM, `localStorage`, `fetch` and `navigator` are replaced by plain values:

- `localStorage` is a `map<string, string>`.
- The document is a record of the attributes and elements the scripts touch.
- The network is a `Fetcher`: a function from request strings
  (`translations/<code>.json`) to `Option<Dict>`. `None` covers a thrown fetch, a
  response that is not ok, and a body that does not parse. Each call in a session
  of calls carries its own `Fetcher`, so the network may answer differently from
  one call to the next.
- The `#darkModeToggle` checkbox may be missing (`hasToggle`). Then line 4 of
  `script.js` throws and the rest of that script does not run.
- The user agent is a string, and `window.MSStream` is a boolean for its
  truthiness.
- Each host write that may throw inside the per-element `try` block is chosen by
  a field of the element (`throwsOn`).

Modules:

- `JsValues`: missing values, truthiness, `localStorage`.
- `Strings`: substring tests, ASCII case-insensitive matching, `split(sep)[0]`.
- `UserAgent`: the Safari regular expression as a left-to-right scan. A
  declarative reading of the regular expression and a lemma tie the two together.
- `Translate`: `safeApplyTranslations`.
- `LanguageChanger`: the start-up language, `changeLanguage`, and sessions of
  successive calls.
- `Script`: theme initialisation, the change listeners, and the Safari notice.

Some behaviours of the code worth noting:

- An element's text is replaced only when the translation is truthy. A key that
  maps to `""` counts as missing.
- Placeholder and alt are written only when they are already non-empty, not
  whenever the element type supports them.
- A stored theme other than `dark`/`light` is copied into the attribute verbatim.
- Any truthy `safariWarningDismissed` value suppresses the notice. A stored `""`
  does not. No code in these scripts ever writes that flag: closing the notice
  does not persist anything.

## Model

| member | source | states |
|---|---|---|
| `LanguageChanger.StartLanguage` | language_changer.js:6-7 | The start language is never empty. It is the stored code when that is truthy. Otherwise it is `en` when the browser language is empty or starts with `-`, or else a non-empty dash-free prefix of the browser language that ends at its first `-` or at its end. |
| `Strings.BeforeFirst` | language_changer.js:6 | `split('-')[0]` is a prefix of the input with no separator in it, followed in the input by the separator or by nothing. |
| `LanguageChanger.ResourcePathInjective` | language_changer.js:26 | Distinct language codes build distinct request strings. |
| `LanguageChanger.TryLoad` | language_changer.js:25-44 | One attempt goes to the network exactly when the code is not cached. It succeeds exactly when the code is cached or the fetch yields a dictionary. A failure leaves the page unchanged and caches nothing. A success caches only that code, keeps a cached dictionary as it was, and commits the dictionary. A newly cached dictionary is the one the fetch returned. |
| `LanguageChanger.ChangeLanguage` | language_changer.js:22-51 | One or two attempts. The second happens exactly when the first failed for a code other than `en`, and it is for `en`. Each attempt fetches exactly when its code is not cached. The cache only grows, and its new keys are loaded codes. Each newly cached dictionary is the one the network returned for that code. On success `siteLanguage` and the document `lang` become the loaded code and its dictionary is applied. If every attempt fails, the whole page is unchanged. |
| `LanguageChanger.PageLoad` | language_changer.js:5-10 | The first attempt at page load is for the start language computed from the stored `siteLanguage` and the browser language, and that code is non-empty. |
| `LanguageChanger.CachedNeverFetched` | language_changer.js:25-29 | For a cached code there is a single attempt with no fetch, and the result is the same whatever the network would answer. |
| `LanguageChanger.AvailableIsApplied` | language_changer.js:25-44 | When a code's dictionary is cached or fetchable, that code is loaded with no fallback. It is persisted, it becomes the document language, and that dictionary is applied to the document. |
| `LanguageChanger.FailureFallsBack` | language_changer.js:46-50 | A failed `en` makes no further attempt and leaves the page unchanged. Any other failed code makes exactly one more attempt, with `en`. If that succeeds, `en` is persisted and set, and the cached or fetched `en` dictionary is applied to the original document. If not, the page is unchanged. |
| `LanguageChanger.Switches` | language_changer.js:22-50 | Over successive calls, each with its own network answers, the first attempt is for the first call's code and every attempt is for a requested code or for the fallback `en`. Across the session every cached dictionary stays cached and unchanged, and every loaded code ends up cached. Every new cache entry is the dictionary the network returned for that code during one of the calls. The session makes between |calls| and 2·|calls| attempts in total. No fetched code was in the cache when the session began, and no attempt fetches a code that an earlier attempt loaded. |
| `LanguageChanger.LastCallWins` | language_changer.js:22-44 | The last click wins: when the final call's code is cached or the network serves it during that call, the session ends with that code stored as `siteLanguage` and set as the document `lang`, whatever the earlier calls did. |
| `LanguageChanger.PersistedIsLastApplied` | language_changer.js:41-50 | After a session, `siteLanguage` and the document `lang` are the code of the last successful attempt. If no attempt succeeded, storage and `lang` are unchanged. No other storage key is touched. |
| `Translate.TranslateElement` | language_changer.js:55-71 | A missing or empty translation leaves the element untouched. Text, placeholder and alt each keep their value or take the translation. An empty placeholder or alt is never filled in. Writes happen in the order text, placeholder, alt. Each write whose own and earlier writes are accepted takes the translation, so an earlier write stays in place when a later one is rejected. A rejected write leaves its own property unchanged. A rejected text write changes nothing, and a rejected non-empty placeholder write also leaves alt alone. |
| `Translate.TranslateElements` | language_changer.js:55-72 | The list keeps its length, and each element is updated on its own, whatever happens to the others. |
| `Translate.SafeApplyTranslations` | language_changer.js:53-78 | Elements whose key is missing or maps to `""` keep every property. The title becomes `page_title` exactly when that entry is truthy, and is otherwise unchanged. |
| `Translate.ApplyTwiceIsApplyOnce` | language_changer.js:53-78 | Applying the same dictionary a second time changes nothing further. |
| `UserAgent.ScanFromCorrect` | script.js:28 | The matcher's scan from index `i` succeeds exactly when `safari` (ignoring case) starts at some `k >= i`, and every character from `i` up to `k` is not a line terminator and starts none of `chrome`, `android`, `crios`, `fxios`. |
| `UserAgent.SafariClause` | script.js:28 | The case-insensitive Safari pattern of line 28 holds exactly when its declarative reading does: `safari` at some index with only consumable characters before it. |
| `UserAgent.IsSafariBrowser` | script.js:26-35 | Safari is reported exactly when the pattern matches, or when a case-sensitive `iPad`/`iPhone`/`iPod` and `AppleWebKit` occur and `MSStream` is falsy. The iOS clause holds even when `CriOS`/`FxiOS` occur. |
| `UserAgent.ExcludedTokenFirst` | script.js:28-34 | An excluded token that starts before every `safari` defeats the pattern. With no iOS token (or with `MSStream`), such an agent, desktop Chrome's for one, is not reported as Safari. |
| `Script.CheckboxFromAttribute` | script.js:4 | The checkbox is checked exactly when the attribute is `dark`. |
| `Script.ApplyStoredTheme` | script.js:12-14 | The attribute becomes the stored theme, or `light` if that is missing or empty. The checkbox matches it, and storage is only read. |
| `Script.InitTheme` | script.js:1-14 | After initialisation with the checkbox present, the attribute is the stored theme verbatim or `light`, whatever it was before. The checkbox is checked exactly when the stored theme is `dark`, overriding line 4. Without the checkbox nothing changes. |
| `Script.FirstChangeListener` | script.js:7-10 | The attribute becomes `dark` or `light` according to the checkbox. Storage is untouched. |
| `Script.SecondChangeListener` | script.js:17-21 | The attribute and the stored `theme` both become `dark` or `light` according to the checkbox. No other storage key changes. |
| `Script.OnChange` | script.js:7-21 | Both listeners together equal the second alone. The attribute and the stored theme depend only on the checkbox state and agree with it. |
| `Script.Toggle` | script.js:7-21 | A click flips the checkbox. The attribute and the stored `theme` then both name the new state, and no other storage key changes. A page without the checkbox is left as it was. |
| `Script.ToggleSurvivesReload` | script.js:12-21 | When both pages have the checkbox, a reload with the storage a toggle left restores the same attribute and checkbox, whatever the reloaded page's attribute was. |
| `Script.SafariNotice` | script.js:38-56 | The page either stays as it was or differs only by the notice at the front of the body, so theme, checkbox and storage are untouched. The notice is added exactly when Safari is detected and the dismissal flag is not truthy. A truthy flag leaves the page unchanged whatever the user agent. |
| `Script.RunScript` | script.js:1-56 | One script run writes nothing to storage. With the checkbox present, the checkbox survives and the attribute ends as the stored theme verbatim or `light`. The checkbox then agrees with the attribute and reflects a stored `dark`. The body becomes the notice followed by the old children when Safari is detected and the flag is not truthy, and is otherwise unchanged. Without the checkbox line 4 throws: the page is unchanged and no notice appears, even on Safari. |

## Left out

- The real DOM, `localStorage`, `fetch`/`response.json()` and `navigator`. They are
  host APIs and appear here as plain values and an oracle.
- Asynchrony: the 50 ms `setTimeout`, the un-awaited fallback call, and races
  between overlapping `changeLanguage` calls. Every call runs to completion before
  the next (`Switches`).
- Click wiring and `preventDefault` for `.language-option` elements
  (language_changer.js:13-19). A click is just a `changeLanguage` call.
- The `beforeunload` listener (language_changer.js:81-86). It only schedules an
  empty timer.
- Console logging of errors and warnings.
- How `fetch` resolves a request string against the page URL. A code such as
  `x/../fr` resolves to the same URL as `fr`. The model keys the network on the
  request string, so it treats the two as different resources.
- How the host renders `undefined` written to `#currentLanguage`. The model
  records the written value, or `undefined`, and writes only when the element
  exists.
- Properties that plain JavaScript objects inherit (a code or key such as
  `constructor`). The cache and dictionaries are treated as maps with only their
  own keys.
- JSON bodies that are not flat string-to-string objects (`null`, numbers, nested
  values).
- Exceptions from `localStorage.setItem`, from the title write or from the display
  write. Only the per-element writes inside the `try` block may throw.
- Nesting of `data-i18n` elements: setting `textContent` on an ancestor detaches
  its descendants, but the model treats the elements as a flat list.
- Aliasing between the nodes the scripts write. The title element, the
  `#currentLanguage` display and the `data-i18n` elements are assumed to be
  distinct nodes. On a page where a `<title>` carries `data-i18n`, its text write
  also changes `document.title`, even when `page_title` is falsy. Where
  `#currentLanguage` carries `data-i18n`, `language_name` overwrites its
  translated text.
- The notice's HTML, its links and Bootstrap's dismiss mechanism. Only the
  insertion of one notice node is modelled.
- General regular-expression semantics. Only the one Safari pattern is written
  out, with ASCII case folding. That folding is exact for a non-Unicode pattern of
  ASCII letters.

=== FILE: js_values.dfy ===
/** Plain-value stand-ins for the JavaScript values and host objects that both page
    scripts read and write. */
module JsValues {

  /** A value that may be missing: `null` from `localStorage.getItem`, or `undefined`
      from a property lookup on a plain object. */
  datatype Option<+T> = None | Some(value: T)

  /** JavaScript truthiness of a string-or-missing value: only a present, non-empty
      string is truthy. */
  predicate Truthy(v: Option<string>)
  {
    v.Some? && v.value != ""
  }

  /** The idiom `v || fallback` for a string-or-missing value. */
  function OrElse(v: Option<string>, fallback: string): string
  {
    if Truthy(v) then v.value else fallback
  }

  /** `localStorage`: a map from keys to string values. */
  type Storage = map<string, string>

  /** `localStorage.getItem(key)`: the stored string, or `null` (None). */
  function GetItem(s: Storage, key: string): Option<string>
  {
    if key in s then Some(s[key]) else None
  }

  /** `localStorage.setItem(key, value)`. */
  function SetItem(s: Storage, key: string, value: string): (r: Storage)
    ensures GetItem(r, key) == Some(value)
    ensures forall k :: k != key ==> GetItem(r, k) == GetItem(s, k)
  {
    s[key := value]
  }
}

=== FILE: language_changer.dfy ===
/** `language_changer.js`: the start-up language, `changeLanguage` over an in-memory
    dictionary cache with a one-level fallback to English, and sessions of successive
    language changes. The network is an oracle from resource paths to dictionaries. */
module LanguageChanger {
  import opened JsValues
  import opened Strings
  import opened Translate

  const DefaultLanguage := "en"
  const LanguageKey := "siteLanguage"
  const LanguageNameKey := "language_name"

  /** The `#currentLanguage` element: absent, or present and showing the value last
      written to it (None is the JavaScript `undefined`, written when the dictionary
      has no `language_name`; how the host renders it is not modelled). */
  datatype LanguageDisplay = NoDisplay | Shows(shown: Option<string>)

  /** What `changeLanguage` reads and writes: the `translations` cache, `localStorage`,
      `document.documentElement.lang`, the translatable document and the
      language display. */
  datatype Page = Page(cache: map<string, Dict>, storage: Storage, lang: string, doc: Document, display: LanguageDisplay)

  /** `fetch` followed by `response.json()`: the dictionary behind a resource path, or
      None when the fetch throws, the response is not ok, or the body does not parse. */
  type Fetcher = string -> Option<Dict>

  /** One call of `changeLanguage` without its fallback: whether it went to the network
      and whether a dictionary was then available. */
  datatype Attempt = Attempt(lang: string, fetched: bool, loaded: bool)

  /** The page after a `changeLanguage` call, and its attempts in order. */
  datatype Switch = Switch(page: Page, attempts: seq<Attempt>)

  function Last<T>(s: seq<T>): T
    requires s != []
  {
    s[|s| - 1]
  }

  /** The start-up language: the stored `siteLanguage` if it is truthy, otherwise the
      browser language up to its first `-`, otherwise `en`. */
  function StartLanguage(stored: Option<string>, browserLanguage: string): (r: string)
    ensures r != ""
    ensures Truthy(stored) ==> r == stored.value
    ensures !Truthy(stored) ==>
      || (r == DefaultLanguage && (browserLanguage == "" || browserLanguage[0] == '-'))
      || (r <= browserLanguage && '-' !in r && (|r| == |browserLanguage| || browserLanguage[|r|] == '-'))
  {
    OrElse(stored, OrElse(Some(BeforeFirst(browserLanguage, '-')), DefaultLanguage))
  }

  /** The resource path a dictionary is fetched from. */
  function ResourcePath(lang: string): string
  {
    "translations/" + lang + ".json"
  }

  /** Distinct codes are fetched from distinct paths. */
  lemma ResourcePathInjective(a: string, b: string)
    ensures ResourcePath(a) == ResourcePath(b) ==> a == b
  {
    if ResourcePath(a) == ResourcePath(b) {
      var n := |"translations/"|;
      assert |a| == |b|;
      assert a == ResourcePath(a)[n..n + |a|];
      assert b == ResourcePath(b)[n..n + |b|];
    }
  }

  /** The success path of `changeLanguage` with dictionary `d`: apply it, update the
      language display if present, persist the code, set the document language. */
  function Commit(p: Page, lang: string, d: Dict): Page
  {
    p.(doc := SafeApplyTranslations(p.doc, d),
       display := if p.display.NoDisplay? then NoDisplay else Shows(Lookup(d, LanguageNameKey)),
       storage := SetItem(p.storage, LanguageKey, lang),
       lang := lang)
  }

  /** One attempt: use the cached dictionary if there is one, otherwise fetch it and
      cache it on success. A failed attempt changes nothing. */
  function TryLoad(p: Page, lang: string, fetch: Fetcher): (r: (Page, Attempt))
    ensures r.1.lang == lang
    ensures r.1.fetched <==> lang !in p.cache
    ensures r.1.loaded <==> lang in p.cache || fetch(ResourcePath(lang)).Some?
    ensures !r.1.loaded ==> r.0 == p
    ensures r.1.loaded ==>
      && lang in r.0.cache
      && r.0.cache == p.cache[lang := r.0.cache[lang]]
      && (lang in p.cache ==> r.0.cache[lang] == p.cache[lang])
      && (lang !in p.cache ==> fetch(ResourcePath(lang)) == Some(r.0.cache[lang]))
      && r.0 == Commit(p.(cache := r.0.cache), lang, r.0.cache[lang])
  {
    if lang in p.cache then
      (Commit(p, lang, p.cache[lang]), Attempt(lang, false, true))
    else match fetch(ResourcePath(lang))
      case None => (p, Attempt(lang, true, false))
      case Some(d) => (Commit(p.(cache := p.cache[lang := d]), lang, d), Attempt(lang, true, true))
  }

  /** `changeLanguage(lang)`, run to completion including its fallback call. */
  function ChangeLanguage(p: Page, lang: string, fetch: Fetcher): (r: Switch)
    decreases if lang == DefaultLanguage then 0 else 1
    ensures 1 <= |r.attempts| <= 2 && r.attempts[0].lang == lang
    // one further attempt, with the default language, exactly after a failed
    // attempt with another code
    ensures |r.attempts| == 2 <==> !r.attempts[0].loaded && lang != DefaultLanguage
    ensures |r.attempts| == 2 ==> r.attempts[1].lang == DefaultLanguage
    ensures forall a :: a in r.attempts ==> a.lang == lang || a.lang == DefaultLanguage
    // the network is consulted exactly for codes the cache lacks
    ensures forall a :: a in r.attempts ==> (a.fetched <==> a.lang !in p.cache)
    ensures forall a :: a in r.attempts ==> (a.loaded <==> a.lang in p.cache || fetch(ResourcePath(a.lang)).Some?)
    // cached dictionaries are kept; new entries are exactly the loaded codes
    ensures forall c :: c in p.cache ==> c in r.page.cache && r.page.cache[c] == p.cache[c]
    ensures r.page.cache.Keys <= p.cache.Keys + set a | a in r.attempts && a.loaded :: a.lang
    ensures forall a :: a in r.attempts && a.loaded ==> a.lang in r.page.cache
    ensures forall c :: c in r.page.cache && c !in p.cache ==> fetch(ResourcePath(c)) == Some(r.page.cache[c])
    // success persists the code and applies its dictionary; failure changes nothing
    ensures Last(r.attempts).loaded ==>
      && r.page.storage == SetItem(p.storage, LanguageKey, Last(r.attempts).lang)
      && r.page.lang == Last(r.attempts).lang
      && r.page.doc == SafeApplyTranslations(p.doc, r.page.cache[Last(r.attempts).lang])
      && (r.page.display.NoDisplay? <==> p.display.NoDisplay?)
    ensures !Last(r.attempts).loaded ==> r.page == p
  {
    var (q, a) := TryLoad(p, lang, fetch);
    if a.loaded || lang == DefaultLanguage then Switch(q, [a])
    else
      var next := ChangeLanguage(q, DefaultLanguage, fetch);
      Switch(next.page, [a] + next.attempts)
  }

  /** Page load: the start-up language is chosen from storage and the browser, then
      applied with `changeLanguage`. */
  function PageLoad(p: Page, browserLanguage: string, fetch: Fetcher): (r: Switch)
    ensures 1 <= |r.attempts| <= 2
    ensures r.attempts[0].lang == StartLanguage(GetItem(p.storage, LanguageKey), browserLanguage)
    ensures r.attempts[0].lang != ""
  {
    ChangeLanguage(p, StartLanguage(GetItem(p.storage, LanguageKey), browserLanguage), fetch)
  }

  /** A cached code is applied from the cache: one attempt, no fetch, and the result
      does not depend on the network at all. */
  lemma CachedNeverFetched(p: Page, lang: string, fetch: Fetcher, other: Fetcher)
    requires lang in p.cache
    ensures ChangeLanguage(p, lang, fetch).attempts == [Attempt(lang, false, true)]
    ensures ChangeLanguage(p, lang, fetch) == ChangeLanguage(p, lang, other)
  {
  }

  /** A code whose dictionary is available ends up applied, persisted and set as the
      document language, with no fallback. */
  lemma AvailableIsApplied(p: Page, lang: string, fetch: Fetcher)
    requires lang in p.cache || fetch(ResourcePath(lang)).Some?
    ensures var r := ChangeLanguage(p, lang, fetch);
      && r.attempts == [Attempt(lang, lang !in p.cache, true)]
      && GetItem(r.page.storage, LanguageKey) == Some(lang)
      && r.page.lang == lang
      && r.page.doc == SafeApplyTranslations(p.doc,
           if lang in p.cache then p.cache[lang] else fetch(ResourcePath(lang)).value)
  {
  }

  /** A failed code other than `en` falls back to `en`: if that is available the page
      ends up in English, otherwise it is left exactly as it was. */
  lemma FailureFallsBack(p: Page, lang: string, fetch: Fetcher)
    requires lang !in p.cache && fetch(ResourcePath(lang)).None?
    ensures var r := ChangeLanguage(p, lang, fetch);
      if lang == DefaultLanguage then r.attempts == [Attempt(lang, true, false)] && r.page == p
      else
        && |r.attempts| == 2 && r.attempts[1].lang == DefaultLanguage
        && (r.attempts[1].loaded ==>
              && GetItem(r.page.storage, LanguageKey) == Some(DefaultLanguage)
              && r.page.lang == DefaultLanguage
              && r.page.doc == SafeApplyTranslations(p.doc,
                   if DefaultLanguage in p.cache then p.cache[DefaultLanguage]
                   else fetch(ResourcePath(DefaultLanguage)).value))
        && (!r.attempts[1].loaded ==> r.page == p)
  {
  }

  /** No attempt of `log` fetches a code among `cached`. */
  predicate FetchesAvoid(log: seq<Attempt>, cached: set<string>)
  {
    forall j :: 0 <= j < |log| && log[j].fetched ==> log[j].lang !in cached
  }

  /** No attempt of `log` fetches a code that an earlier attempt loaded. */
  predicate NoRefetch(log: seq<Attempt>)
  {
    forall i, j :: 0 <= i < j < |log| && log[i].loaded && log[j].fetched ==> log[i].lang != log[j].lang
  }

  /** Gluing the attempts of one call, made against the cache `before`, to those of
      the calls after it, made against a cache `after` that contains `before`. */
  lemma FetchesAvoidAppend(A: seq<Attempt>, B: seq<Attempt>, before: set<string>, after: set<string>)
    requires forall a :: a in A && a.fetched ==> a.lang !in before
    requires FetchesAvoid(B, after) && before <= after
    ensures FetchesAvoid(A + B, before)
  {
    // An attempt of A avoids `before` by the first requires; one of B avoids
    // `after`, which contains `before`.
  }

  /** Gluing the attempts of one call to those of the calls after it, made against
      a cache `cached` that holds every code the first call loaded. */
  lemma NoRefetchAppend(A: seq<Attempt>, B: seq<Attempt>, cached: set<string>)
    requires |A| <= 2 && (|A| == 2 ==> !A[0].loaded)
    requires forall a :: a in A && a.loaded ==> a.lang in cached
    requires FetchesAvoid(B, cached) && NoRefetch(B)
    ensures NoRefetch(A + B)
  {
    // Within A only a failed first attempt precedes another; a code loaded in A
    // is in `cached`, which B never fetches; pairs inside B are NoRefetch(B).
  }

  /** Every entry of `after` that `before` lacks is what the network answered for
      its code during one of `calls`. */
  predicate CachedFromNetwork(before: map<string, Dict>, after: map<string, Dict>, calls: seq<Call>)
  {
    forall c :: c in after && c !in before ==>
      exists k :: 0 <= k < |calls| && calls[k].fetch(ResourcePath(c)) == Some(after[c])
  }

  /** Gluing the cache growth of one call to that of the calls after it. */
  lemma CachedFromNetworkAppend(c0: map<string, Dict>, c1: map<string, Dict>, c2: map<string, Dict>,
                                call: Call, rest: seq<Call>)
    requires forall c :: c in c1 && c !in c0 ==> call.fetch(ResourcePath(c)) == Some(c1[c])
    requires forall c :: c in c1 ==> c in c2 && c2[c] == c1[c]
    requires CachedFromNetwork(c1, c2, rest)
    ensures CachedFromNetwork(c0, c2, [call] + rest)
  {
    var calls := [call] + rest;
    forall c | c in c2 && c !in c0
      ensures exists k :: 0 <= k < |calls| && calls[k].fetch(ResourcePath(c)) == Some(c2[c])
    {
      if c in c1 {
        assert calls[0].fetch(ResourcePath(c)) == Some(c2[c]);
      } else {
        var k :| 0 <= k < |rest| && rest[k].fetch(ResourcePath(c)) == Some(c2[c]);
        assert calls[k + 1] == rest[k];
      }
    }
  }

  /** Every attempt of `log` is for a code some call of `calls` requested, or for the
      fallback `en`. */
  predicate Requested(log: seq<Attempt>, calls: seq<Call>)
  {
    forall j :: 0 <= j < |log| ==>
      log[j].lang == DefaultLanguage || exists k :: 0 <= k < |calls| && calls[k].lang == log[j].lang
  }

  /** Gluing the attempts of one call, each for its code or for `en`, to those of
      the calls after it. */
  lemma RequestedAppend(A: seq<Attempt>, B: seq<Attempt>, call: Call, rest: seq<Call>)
    requires forall a :: a in A ==> a.lang == call.lang || a.lang == DefaultLanguage
    requires Requested(B, rest)
    ensures Requested(A + B, [call] + rest)
  {
    var log, calls := A + B, [call] + rest;
    forall j | 0 <= j < |log| && log[j].lang != DefaultLanguage
      ensures exists k :: 0 <= k < |calls| && calls[k].lang == log[j].lang
    {
      if j < |A| {
        assert log[j] == A[j] && A[j] in A;
        assert calls[0].lang == log[j].lang;
      } else {
        assert log[j] == B[j - |A|];
        var k :| 0 <= k < |rest| && rest[k].lang == log[j].lang;
        assert calls[k + 1] == rest[k];
      }
    }
  }

  /** One click, or the start-up call: the code requested, and what the network
      answers while that call runs. A code that failed is not cached, so a later
      call fetches it again and may get a different answer. */
  datatype Call = Call(lang: string, fetch: Fetcher)

  /** Successive `changeLanguage` calls on one page (the start-up call, then clicks),
      each run to completion before the next; the attempts of all calls in order.
      Over the whole session the cache is never refetched: no fetched code was cached
      at the start, and once a code is loaded no later attempt fetches it. */
  function Switches(p: Page, calls: seq<Call>): (r: Switch)
    ensures forall c :: c in p.cache ==> c in r.page.cache && r.page.cache[c] == p.cache[c]
    ensures CachedFromNetwork(p.cache, r.page.cache, calls)
    ensures forall a :: a in r.attempts && a.loaded ==> a.lang in r.page.cache
    ensures |calls| <= |r.attempts| <= 2 * |calls|
    ensures FetchesAvoid(r.attempts, p.cache.Keys)
    ensures NoRefetch(r.attempts)
    // every attempt is for a requested code or for the fallback `en`
    ensures calls != [] ==> r.attempts[0].lang == calls[0].lang
    ensures Requested(r.attempts, calls)
    decreases |calls|
  {
    if calls == [] then Switch(p, [])
    else
      var first := ChangeLanguage(p, calls[0].lang, calls[0].fetch);
      var rest := Switches(first.page, calls[1..]);
      FetchesAvoidAppend(first.attempts, rest.attempts, p.cache.Keys, first.page.cache.Keys);
      NoRefetchAppend(first.attempts, rest.attempts, first.page.cache.Keys);
      CachedFromNetworkAppend(p.cache, first.page.cache, rest.page.cache, calls[0], calls[1..]);
      RequestedAppend(first.attempts, rest.attempts, calls[0], calls[1..]);
      assert [calls[0]] + calls[1..] == calls;
      Switch(rest.page, first.attempts + rest.attempts)
  }

  /** The code of the last loaded attempt in a log, if any. */
  function LastLoaded(log: seq<Attempt>): Option<string>
  {
    if log == [] then None
    else if Last(log).loaded then Some(Last(log).lang)
    else LastLoaded(log[..|log| - 1])
  }

  lemma LastLoadedAppend(A: seq<Attempt>, B: seq<Attempt>)
    ensures LastLoaded(A + B) == if LastLoaded(B).Some? then LastLoaded(B) else LastLoaded(A)
    decreases |B|
  {
    if B != [] {
      assert (A + B)[..|A + B| - 1] == A + B[..|B| - 1];
      LastLoadedAppend(A, B[..|B| - 1]);
    } else {
      assert A + B == A;
    }
  }

  /** For one call, the last loaded attempt is its final attempt, or there is none
      and the page is unchanged. */
  lemma ChangeLanguageLastLoaded(p: Page, lang: string, fetch: Fetcher)
    ensures var r := ChangeLanguage(p, lang, fetch);
      match LastLoaded(r.attempts)
      case None => r.page == p
      case Some(c) => Last(r.attempts).loaded && c == Last(r.attempts).lang
  {
    var r := ChangeLanguage(p, lang, fetch);
    var A := r.attempts;
    if |A| == 2 {
      assert A[..1] == [A[0]];
      assert A[..1][..0] == [];
      assert LastLoaded(A[..1]) == None;
    } else {
      assert Last(A) == A[0];
      assert A[..0] == [];
      assert LastLoaded(A[..0]) == None;
    }
  }

  /** The persisted language and the document language are the last ones successfully
      applied over a session, not merely the last requested; with nothing applied
      they are unchanged. Other storage keys are never touched. */
  lemma {:induction false} PersistedIsLastApplied(p: Page, calls: seq<Call>)
    ensures var r := Switches(p, calls);
      && (forall k :: k != LanguageKey ==> GetItem(r.page.storage, k) == GetItem(p.storage, k))
      && match LastLoaded(r.attempts)
         case None => r.page.storage == p.storage && r.page.lang == p.lang
         case Some(c) => GetItem(r.page.storage, LanguageKey) == Some(c) && r.page.lang == c
    decreases |calls|
  {
    if calls != [] {
      var first := ChangeLanguage(p, calls[0].lang, calls[0].fetch);
      var rest := Switches(first.page, calls[1..]);
      PersistedIsLastApplied(first.page, calls[1..]);
      LastLoadedAppend(first.attempts, rest.attempts);
      ChangeLanguageLastLoaded(p, calls[0].lang, calls[0].fetch);
      assert Switches(p, calls) == Switch(rest.page, first.attempts + rest.attempts);
    }
  }

  /** The last click wins: when the code of the final call is cached or the network
      serves it on that call, the session ends with that code persisted and set as
      the document language, whatever the earlier calls did. */
  lemma {:induction false} LastCallWins(p: Page, calls: seq<Call>)
    requires calls != []
    requires Last(calls).lang in p.cache || Last(calls).fetch(ResourcePath(Last(calls).lang)).Some?
    ensures GetItem(Switches(p, calls).page.storage, LanguageKey) == Some(Last(calls).lang)
    ensures Switches(p, calls).page.lang == Last(calls).lang
    decreases |calls|
  {
    var first := ChangeLanguage(p, calls[0].lang, calls[0].fetch);
    var rest := Switches(first.page, calls[1..]);
    assert Switches(p, calls) == Switch(rest.page, first.attempts + rest.attempts);
    if |calls| == 1 {
      AvailableIsApplied(p, calls[0].lang, calls[0].fetch);
    } else {
      assert Last(calls[1..]) == Last(calls);
      LastCallWins(first.page, calls[1..]);
    }
  }
}

=== FILE: script.dfy ===
/** `script.js`: the dark-mode checkbox and `data-bs-theme` attribute, and the
    one-time Safari compatibility notice, run once per page load. */
module Script {
  import opened JsValues
  import opened UserAgent

  const ThemeKey := "theme"
  const DismissedKey := "safariWarningDismissed"
  const Dark := "dark"
  const Light := "light"

  /** A child of `document.body`: the Safari notice, or any other node. */
  datatype Node = SafariWarning | Other(id: nat)

  /** What `script.js` reads and writes: the `data-bs-theme` attribute of the root
      element (None when absent), whether the `#darkModeToggle` checkbox exists and
      its state, `localStorage` and the children of the body. Without the checkbox,
      line 4 dereferences `null` and the script stops there. */
  datatype Page = Page(theme: Option<string>, hasToggle: bool, checked: bool, storage: Storage, body: seq<Node>)

  /** The checkbox agrees with the attribute. */
  predicate CheckboxInSync(p: Page)
  {
    p.checked <==> p.theme == Some(Dark)
  }

  /** Line 4: the checkbox is set from the current attribute. */
  function CheckboxFromAttribute(p: Page): (r: Page)
    ensures CheckboxInSync(r)
    ensures r.theme == p.theme && r.storage == p.storage && r.body == p.body
  {
    p.(checked := p.theme == Some(Dark))
  }

  /** Lines 12-14: the stored theme, or `light`, is copied into the attribute and the
      checkbox set to match; the storage is only read. */
  function ApplyStoredTheme(p: Page): (r: Page)
    ensures r.theme == Some(OrElse(GetItem(p.storage, ThemeKey), Light))
    ensures CheckboxInSync(r)
    ensures r.storage == p.storage && r.body == p.body
  {
    var current := OrElse(GetItem(p.storage, ThemeKey), Light);
    p.(theme := Some(current), checked := current == Dark)
  }

  /** Theme initialisation at script load: line 4, then lines 12-14. The stored
      preference wins over whatever the attribute and checkbox held before, and a
      stored value other than `dark` or `light` is copied verbatim. Without the
      checkbox, line 4 throws and nothing changes. */
  function InitTheme(p: Page): (r: Page)
    ensures p.hasToggle && Truthy(GetItem(p.storage, ThemeKey)) ==> r.theme == Some(p.storage[ThemeKey])
    ensures p.hasToggle && !Truthy(GetItem(p.storage, ThemeKey)) ==> r.theme == Some(Light)
    ensures p.hasToggle ==> (r.checked <==> GetItem(p.storage, ThemeKey) == Some(Dark))
    ensures !p.hasToggle ==> r == p
    ensures r.hasToggle == p.hasToggle && r.storage == p.storage && r.body == p.body
  {
    if !p.hasToggle then p else ApplyStoredTheme(CheckboxFromAttribute(p))
  }

  /** The theme a checkbox state selects. */
  function ThemeFor(checked: bool): string
  {
    if checked then Dark else Light
  }

  /** The first `change` listener (lines 7-10): sets the attribute only. */
  function FirstChangeListener(p: Page): (r: Page)
    ensures r.theme == Some(ThemeFor(p.checked)) && CheckboxInSync(r)
    ensures r.checked == p.checked && r.storage == p.storage && r.body == p.body
  {
    p.(theme := Some(ThemeFor(p.checked)))
  }

  /** The second `change` listener (lines 17-21): sets the attribute and persists it. */
  function SecondChangeListener(p: Page): (r: Page)
    ensures r.theme == Some(ThemeFor(p.checked)) && CheckboxInSync(r)
    ensures GetItem(r.storage, ThemeKey) == Some(ThemeFor(p.checked))
    ensures forall k :: k != ThemeKey ==> GetItem(r.storage, k) == GetItem(p.storage, k)
    ensures r.checked == p.checked && r.body == p.body
  {
    p.(theme := Some(ThemeFor(p.checked)), storage := SetItem(p.storage, ThemeKey, ThemeFor(p.checked)))
  }

  /** A `change` event: both listeners, in registration order. The result depends
      only on the checkbox state, and the first listener's write is subsumed by the
      second's. */
  function OnChange(p: Page): (r: Page)
    ensures r == SecondChangeListener(p)
    ensures r.theme == Some(if p.checked then Dark else Light)
    ensures GetItem(r.storage, ThemeKey) == r.theme
    ensures CheckboxInSync(r)
  {
    SecondChangeListener(FirstChangeListener(p))
  }

  /** The user clicks the checkbox: it flips, then the `change` event runs. A page
      without the checkbox offers nothing to click. */
  function Toggle(p: Page): (r: Page)
    ensures p.hasToggle ==> r.checked == !p.checked
    ensures p.hasToggle ==> r.theme == Some(if r.checked then Dark else Light)
    ensures p.hasToggle ==> GetItem(r.storage, ThemeKey) == r.theme
    ensures forall k :: k != ThemeKey ==> GetItem(r.storage, k) == GetItem(p.storage, k)
    ensures !p.hasToggle ==> r == p
    ensures r.hasToggle == p.hasToggle && r.body == p.body
  {
    if !p.hasToggle then p else OnChange(p.(checked := !p.checked))
  }

  /** A theme chosen with the checkbox survives a reload: initialising a reloaded page
      with the same storage, whatever its attribute, restores both the attribute and
      the checkbox. */
  lemma ToggleSurvivesReload(p: Page, reloaded: Page)
    requires reloaded.storage == Toggle(p).storage
    ensures p.hasToggle && reloaded.hasToggle ==> InitTheme(reloaded).theme == Toggle(p).theme
    ensures p.hasToggle && reloaded.hasToggle ==> InitTheme(reloaded).checked == Toggle(p).checked
  {
  }

  /** Whether the notice is inserted: Safari is detected and the dismissal flag is
      not truthy. */
  predicate ShowsNotice(storage: Storage, ua: string, msStream: bool)
  {
    IsSafariBrowser(ua, msStream) && !Truthy(GetItem(storage, DismissedKey))
  }

  /** Lines 38-56: prepend the notice when Safari is detected and no truthy
      dismissal flag is stored. The flag is only read, never written. */
  function SafariNotice(p: Page, ua: string, msStream: bool): (r: Page)
    ensures r.theme == p.theme && r.checked == p.checked && r.storage == p.storage
    ensures r.body == p.body || r.body == [SafariWarning] + p.body
    ensures |r.body| == |p.body| + 1 <==> IsSafariBrowser(ua, msStream) && !Truthy(GetItem(p.storage, DismissedKey))
    ensures multiset(r.body)[SafariWarning] ==
      multiset(p.body)[SafariWarning] + if ShowsNotice(p.storage, ua, msStream) then 1 else 0
    ensures Truthy(GetItem(p.storage, DismissedKey)) ==> r == p
    ensures r == p || r == p.(body := [SafariWarning] + p.body)
  {
    if ShowsNotice(p.storage, ua, msStream) then p.(body := [SafariWarning] + p.body) else p
  }

  /** One run of the whole script at page load. Loading writes nothing to storage:
      the theme is only read, and the dismissal flag is never set. Without the
      checkbox the script throws at line 4, before the theme and the notice, so
      nothing changes even on Safari. */
  function RunScript(p: Page, ua: string, msStream: bool): (r: Page)
    ensures r.storage == p.storage
    ensures !p.hasToggle ==> r == p
    ensures p.hasToggle ==> r.hasToggle && r.theme == Some(OrElse(GetItem(p.storage, ThemeKey), Light))
    ensures p.hasToggle ==> (r.checked <==> GetItem(p.storage, ThemeKey) == Some(Dark))
    ensures p.hasToggle ==> CheckboxInSync(r)
    ensures p.hasToggle ==>
      r.body == if ShowsNotice(p.storage, ua, msStream) then [SafariWarning] + p.body else p.body
    ensures p.hasToggle ==>
      multiset(r.body)[SafariWarning] ==
      multiset(p.body)[SafariWarning] + if ShowsNotice(p.storage, ua, msStream) then 1 else 0
  {
    if !p.hasToggle then p else SafariNotice(InitTheme(p), ua, msStream)
  }
}

=== FILE: strings.dfy ===
/** String matching used by the page scripts: plain substring tests (what a regular
    expression made of literal characters decides), ASCII case-insensitive matching
    (what the `i` flag decides for letters), and `split(sep)[0]`. */
module Strings {

  /** `w` occurs in `s` at index `i`. */
  predicate HasAt(s: string, i: nat, w: string)
  {
    i + |w| <= |s| && s[i..i + |w|] == w
  }

  /** `w` occurs somewhere in `s`: `/w/.test(s)` for a pattern of literal characters. */
  predicate Contains(s: string, w: string)
  {
    exists i: nat :: i <= |s| && HasAt(s, i, w)
  }

  /** Lower-cases the ASCII letters and leaves every other character alone. In a
      non-Unicode JavaScript regular expression the `i` flag never folds a
      non-ASCII character onto an ASCII one, so for a pattern of lower-case ASCII
      letters this comparison is exact. */
  function AsciiLower(c: char): char
  {
    if 'A' <= c <= 'Z' then (c as int + 32) as char else c
  }

  /** The lower-case ASCII word `w` occurs in `s` at index `i`, ignoring case. */
  predicate HasAtIgnoreCase(s: string, i: nat, w: string)
  {
    i + |w| <= |s| && forall k :: 0 <= k < |w| ==> AsciiLower(s[i + k]) == w[k]
  }

  /** `s.split(sep)[0]`: the part of `s` before the first `sep`, or all of `s`
      when there is none. */
  function BeforeFirst(s: string, sep: char): (r: string)
    ensures r <= s
    ensures sep !in r
    ensures |r| < |s| ==> s[|r|] == sep
  {
    if s == [] || s[0] == sep then [] else [s[0]] + BeforeFirst(s[1..], sep)
  }
}

=== FILE: translate.dfy ===
/** `safeApplyTranslations`: writing one translation dictionary into the elements that
    carry a `data-i18n` key, and into the page title. */
module Translate {
  import opened JsValues

  /** A translation dictionary: the parsed `translations/<code>.json` object, a flat
      map from keys to display strings. */
  type Dict = map<string, string>

  const PageTitleKey := "page_title"

  /** `dict[key]`: the entry, or `undefined` (None) when the dictionary has none. */
  function Lookup(d: Dict, key: string): Option<string>
  {
    if key in d then Some(d[key]) else None
  }

  /** The three property writes of one element's update, in the order they are made. */
  datatype Write = TextWrite | PlaceholderWrite | AltWrite

  /** An element carrying a `data-i18n` attribute. An empty `placeholder` or `alt`
      stands for a missing or empty property, both falsy. `throwsOn` names the write,
      if any, that the host rejects with an exception for this element. */
  datatype Element = Element(key: string, text: string, placeholder: string, alt: string, throwsOn: Option<Write>)

  /** The part of the document the translations touch, in document order. */
  datatype Document = Document(title: string, elements: seq<Element>)

  /** Whether the write `w` goes through for element `e`. */
  predicate Accepts(e: Element, w: Write)
  {
    e.throwsOn != Some(w)
  }

  /** The update of one element inside its own `try` block: the text, then the
      placeholder if it is already non-empty, then the alt text if it is already
      non-empty, each set to the translation; the first rejected write abandons the
      rest of this element's update. */
  function TranslateElement(e: Element, d: Dict): (r: Element)
    // only content changes; the element stays the same element
    ensures r.key == e.key && r.throwsOn == e.throwsOn
    // a missing key or an empty translation leaves the element untouched
    ensures !Truthy(Lookup(d, e.key)) ==> r == e
    // every property either keeps its value or takes the translation
    ensures r.text == e.text || (Truthy(Lookup(d, e.key)) && r.text == d[e.key])
    // a placeholder or alt text is never created, only overwritten
    ensures r.placeholder == e.placeholder || (e.placeholder != "" && Truthy(Lookup(d, e.key)) && r.placeholder == d[e.key])
    ensures r.alt == e.alt || (e.alt != "" && Truthy(Lookup(d, e.key)) && r.alt == d[e.key])
    // each write that is attempted and accepted takes effect, and stays in place
    // when a later write is rejected
    ensures Truthy(Lookup(d, e.key)) && Accepts(e, TextWrite) ==> r.text == d[e.key]
    ensures
      (&& Truthy(Lookup(d, e.key)) && e.placeholder != ""
       && Accepts(e, TextWrite) && Accepts(e, PlaceholderWrite))
      ==> r.placeholder == d[e.key]
    ensures
      (&& Truthy(Lookup(d, e.key)) && e.alt != ""
       && Accepts(e, TextWrite) && (e.placeholder == "" || Accepts(e, PlaceholderWrite)) && Accepts(e, AltWrite))
      ==> r.alt == d[e.key]
    // a rejected write leaves its own property unchanged and stops the writes after it
    ensures e.throwsOn == Some(TextWrite) ==> r == e
    ensures e.throwsOn == Some(PlaceholderWrite) ==> r.placeholder == e.placeholder
    ensures e.throwsOn == Some(PlaceholderWrite) && e.placeholder != "" ==> r.alt == e.alt
    ensures e.throwsOn == Some(AltWrite) ==> r.alt == e.alt
  {
    var v := Lookup(d, e.key);
    if !Truthy(v) || !Accepts(e, TextWrite) then e
    else
      var withText := e.(text := v.value);
      if e.placeholder != "" && !Accepts(e, PlaceholderWrite) then withText
      else
        var withPlaceholder := if e.placeholder != "" then withText.(placeholder := v.value) else withText;
        if e.alt != "" && !Accepts(e, AltWrite) then withPlaceholder
        else if e.alt != "" then withPlaceholder.(alt := v.value)
        else withPlaceholder
  }

  /** The `forEach` over the `data-i18n` elements: each element is updated on its
      own, so one element's failure does not affect the others. */
  function TranslateElements(es: seq<Element>, d: Dict): (r: seq<Element>)
    ensures |r| == |es|
    ensures forall i :: 0 <= i < |es| ==> r[i] == TranslateElement(es[i], d)
  {
    if es == [] then [] else [TranslateElement(es[0], d)] + TranslateElements(es[1..], d)
  }

  /** `safeApplyTranslations(d)`. */
  function SafeApplyTranslations(doc: Document, d: Dict): (r: Document)
    ensures |r.elements| == |doc.elements|
    ensures forall i :: 0 <= i < |doc.elements| ==> r.elements[i] == TranslateElement(doc.elements[i], d)
    // elements whose key is missing or maps to "" keep all their properties
    ensures forall i :: 0 <= i < |doc.elements| && !Truthy(Lookup(d, doc.elements[i].key)) ==>
      r.elements[i] == doc.elements[i]
    // the title changes exactly when `page_title` is truthy
    ensures Truthy(Lookup(d, PageTitleKey)) ==> r.title == d[PageTitleKey]
    ensures !Truthy(Lookup(d, PageTitleKey)) ==> r.title == doc.title
  {
    Document(if Truthy(Lookup(d, PageTitleKey)) then d[PageTitleKey] else doc.title,
             TranslateElements(doc.elements, d))
  }

  /** Applying the same dictionary again changes nothing more: re-applying the
      dictionary just applied leaves the page as it is. */
  lemma ApplyTwiceIsApplyOnce(doc: Document, d: Dict)
    ensures SafeApplyTranslations(SafeApplyTranslations(doc, d), d) == SafeApplyTranslations(doc, d)
  {
  }
}

=== FILE: user_agent.dfy ===
/** The user-agent test of `isSafariBrowser`: the case-insensitive regular expression
    `^((?!chrome|android|crios|fxios).)*safari`, written out as a left-to-right scan,
    and the case-sensitive iOS/WebKit clause. */
module UserAgent {
  import opened Strings

  const SafariToken := "safari"

  /** The characters `.` does not match (no `s` flag): the ECMAScript line terminators. */
  predicate LineTerminator(c: char)
  {
    c == '\n' || c == '\r' || c == '\U{2028}' || c == '\U{2029}'
  }

  /** The negative lookahead `(?!chrome|android|crios|fxios)` fails at index `i`. */
  predicate ExcludedAt(ua: string, i: nat)
  {
    || HasAtIgnoreCase(ua, i, "chrome")
    || HasAtIgnoreCase(ua, i, "android")
    || HasAtIgnoreCase(ua, i, "crios")
    || HasAtIgnoreCase(ua, i, "fxios")
  }

  /** One iteration of `((?!chrome|android|crios|fxios).)` can consume the character
      at index `i`. */
  predicate Consumable(ua: string, i: nat)
  {
    i < |ua| && !LineTerminator(ua[i]) && !ExcludedAt(ua, i)
  }

  /** Declarative meaning of the pattern: `safari` starts at some index `k`, and every
      character before `k` can be consumed by the lookahead-guarded dot. */
  ghost predicate MatchesAt(ua: string, k: nat)
  {
    HasAtIgnoreCase(ua, k, SafariToken) && forall j :: 0 <= j < k ==> Consumable(ua, j)
  }

  ghost predicate SafariPattern(ua: string)
  {
    exists k: nat :: k <= |ua| && MatchesAt(ua, k)
  }

  /** The scan a backtracking matcher performs from index `i`: succeed where `safari`
      starts, otherwise consume one more character if the guarded dot allows it. */
  function ScanFrom(ua: string, i: nat): bool
    requires i <= |ua|
    decreases |ua| - i
  {
    if HasAtIgnoreCase(ua, i, SafariToken) then true
    else if Consumable(ua, i) then ScanFrom(ua, i + 1)
    else false
  }

  /** The scan from `i` succeeds exactly when `safari` starts at some `k >= i` with
      every character in between consumable. */
  lemma {:induction false} ScanFromCorrect(ua: string, i: nat)
    requires i <= |ua|
    ensures ScanFrom(ua, i) <==>
      exists k: nat :: i <= k <= |ua| && HasAtIgnoreCase(ua, k, SafariToken) &&
        forall j :: i <= j < k ==> Consumable(ua, j)
    decreases |ua| - i
  {
    if HasAtIgnoreCase(ua, i, SafariToken) {
      assert i <= i <= |ua| && HasAtIgnoreCase(ua, i, SafariToken);
    } else if Consumable(ua, i) {
      ScanFromCorrect(ua, i + 1);
      if ScanFrom(ua, i + 1) {
        var k: nat :| i + 1 <= k <= |ua| && HasAtIgnoreCase(ua, k, SafariToken) &&
          forall j :: i + 1 <= j < k ==> Consumable(ua, j);
        assert forall j :: i <= j < k ==> Consumable(ua, j);
      }
    }
  }

  /** The scan from the start of the user agent decides the pattern. */
  lemma ScanDecidesPattern(ua: string)
    ensures ScanFrom(ua, 0) <==> SafariPattern(ua)
  {
    ScanFromCorrect(ua, 0);
    if ScanFrom(ua, 0) {
      var k: nat :| 0 <= k <= |ua| && HasAtIgnoreCase(ua, k, SafariToken) &&
        forall j :: 0 <= j < k ==> Consumable(ua, j);
      assert MatchesAt(ua, k);
    }
    if SafariPattern(ua) {
      var k: nat :| k <= |ua| && MatchesAt(ua, k);
      assert 0 <= k <= |ua| && HasAtIgnoreCase(ua, k, SafariToken) &&
        forall j :: 0 <= j < k ==> Consumable(ua, j);
    }
  }

  /** `/^((?!chrome|android|crios|fxios).)*safari/i.test(ua)`. */
  function SafariClause(ua: string): (b: bool)
    ensures b <==> SafariPattern(ua)
  {
    ScanDecidesPattern(ua);
    ScanFrom(ua, 0)
  }

  /** `/iPad|iPhone|iPod/.test(ua) && /AppleWebKit/.test(ua)`: case-sensitive. */
  predicate IosWebKit(ua: string)
  {
    (Contains(ua, "iPad") || Contains(ua, "iPhone") || Contains(ua, "iPod")) && Contains(ua, "AppleWebKit")
  }

  /** `isSafariBrowser()`, with `navigator.userAgent` as `ua` and the truthiness of
      `window.MSStream` as `msStream`. */
  function IsSafariBrowser(ua: string, msStream: bool): (r: bool)
    ensures r <==> SafariPattern(ua) || (IosWebKit(ua) && !msStream)
  {
    SafariClause(ua) || (IosWebKit(ua) && !msStream)
  }

  /** An excluded token that starts before every occurrence of `safari` defeats the
      pattern: with no iOS token, such a user agent (desktop Chrome's, say) is not
      reported as Safari. */
  lemma ExcludedTokenFirst(ua: string, e: nat, msStream: bool)
    requires ExcludedAt(ua, e)
    requires forall k :: 0 <= k <= e ==> !HasAtIgnoreCase(ua, k, SafariToken)
    requires !IosWebKit(ua) || msStream
    ensures !IsSafariBrowser(ua, msStream)
  {
    forall k: nat | k <= |ua| ensures !MatchesAt(ua, k) {
      if k > e {
        assert !Consumable(ua, e);
      }
    }
  }
}
